=== FILE: README.md ===
# Game session of a Flappy-Bird style browser game, in Dafny

This project models the game logic of `ScriptsGame/scriptsGame.js`. A bird
falls a fixed `GRAVITY` of 3.1 pixels per fall tick and hops upward in ten small steps when Space is
pressed. Sky/floor pipe pairs spawn at the right edge and scroll left. A pipe
that has left the screen is removed, and removing a top pipe scores a point.
Touching the floor or a pipe ends the game. Restart becomes possible 800 ms
later.

The page keeps this state in module-level variables. Here it is one
immutable `Game.Session` record, and each timer firing or key press is a pure
step function on it (`Game.Step`, folded over an event sequence by
`Game.Run`). The record also tracks which timers are still live, because the
page does not always clear them:

- `ticking`: whether the fall, move and spawn intervals are running. They
  are always started and cleared together.
- `jumpTimers`: the number of live jump intervals. `gameOver` and
  `restartGame` do not clear them, so a dead bird can keep rising.
- `pendingRefresh`: the number of game-over timeouts that have not fired
  yet. `restartGame` does not cancel them, and a move pass calls `gameOver`
  once for every visited pipe whose moved box overlaps the bird.

A timer firing while its timer is not live is a no-op.

Modules:

- `Config`: the tuning constants, and the `Layout` measurements taken from
  the page.
- `Nearest`: distance on the reals, used to say that a clamp returns the
  nearest point of a range.
- `Geometry`: rectangles and the strict overlap test.
- `Bird`: the floor/ceiling check (`checkCollision`).
- `Pipes`: spawn geometry (`createPipe`, `createPipeElement`) and the move
  pass (`movePipes`, `checkCollisionWithPipe`, `updateScore`).
- `Game`: the session, the events, `gameOver`, the delayed refresh,
  `restartGame`, the keydown handler, and the invariants and trace lemmas.

`movePipes` is modelled as the code runs it. `forEach` fixes the iteration
count at the array's starting length and skips indices that no longer exist.
The body splices the current pipe out of the same array, so after a removal
the next pipe moves down into the current index and is never visited in that
pass. `Pipes.Visit` models this index by index. `Pipes.Fates` is an
independent pipe-by-pipe reference: each pipe is Moved, Reaped, or Skipped
(it came right after a reaped pipe). `Pipes.MovePipesMatchesReference` proves
the two agree. One visible effect: when a pair's top pipe is reaped, its
bottom pipe is not moved in that pass. It therefore falls 7 pixels behind,
and the next pair's top pipe is skipped on the following pass.

Three behaviours of the code are worth noting:

- Pipes are removed one at a time, and only removing a top pipe scores.
- `gameOver` does not clear a running jump interval, so a dead bird can
  keep rising (`Game.JumpMovesDeadBird`).
- `restartGame` does not cancel a game-over timeout that is still pending.
  Such a leftover timeout from an earlier game can enable restart as soon
  as the bird dies. This is why `Game.PhaseTransitions` states the
  running-to-dying step only for sessions where restart is not yet enabled.

## Model

| member | source | states |
|---|---|---|
| `Bird.CheckBounds` | ScriptsGame/scriptsGame.js:65-79 | The floor flag is raised exactly when the bird's bottom edge reaches the container's height. When the bird fits in the container, the resulting offset is the point of `[0, height - birdHeight]` nearest to the input. When it does not fit, the offset is 0. |
| `Bird.CheckBoundsIdempotent` | ScriptsGame/scriptsGame.js:65-79 | For every layout, checking an offset that was already corrected leaves it unchanged. |
| `Game.Fall` | ScriptsGame/scriptsGame.js:65-105 | A fall tick of a stopped session changes nothing. Otherwise, when the bird fits, the bird ends at the point of `[0, height - birdHeight]` nearest to its offset plus `GRAVITY`. It is dead afterwards exactly when it was dead already or gravity brought it to the floor. Without floor contact only the position changes, so the intervals keep running and pending timeouts stay pending. Floor contact stops the intervals and schedules one refresh timeout. Score, pipes, refresh flag and jump state are untouched. |
| `Game.FloorContactIsFatal` | ScriptsGame/scriptsGame.js:70-73 | Floor contact puts the bird on the floor (at 0 if the bird is taller than the container), marks it dead, stops the intervals and schedules one refresh timeout. |
| `Game.CeilingContactIsHarmless` | ScriptsGame/scriptsGame.js:76-78 | Ceiling contact without floor contact only sets the offset to 0. Nothing else in the session changes. |
| `Game.FallOneTick` | ScriptsGame/scriptsGame.js:101-103 | A live bird that survives a fall tick moves down by exactly `GRAVITY` whenever gravity brings it below the ceiling. This includes a bird that a jump step left slightly above the ceiling. |
| `Game.FallIsUniform` | ScriptsGame/scriptsGame.js:101-103 | While it stays alive, a bird starting at or below the ceiling is `n * GRAVITY` lower after `n` fall ticks. |
| `Game.FallReachesFloor` | ScriptsGame/scriptsGame.js:70-73 | Without jumps, a live bird starting at or below the ceiling is dead after any `n >= 1` fall ticks with `n * GRAVITY >= height - birdHeight - pos`. |
| `Game.FallTicksKeepDead` | ScriptsGame/scriptsGame.js:83-87 | Fall ticks never bring a dead bird back to life. |
| `Game.GameOver` | ScriptsGame/scriptsGame.js:82-98 | Marks the bird dead, stops the three intervals and adds one pending refresh timeout. Every other field is unchanged, including a running jump. |
| `Game.GameOverTimes` | ScriptsGame/scriptsGame.js:170-172 | `n` game-over calls add `n` pending timeouts. When `n > 0` the bird is dead and the intervals are stopped. No other field changes. |
| `Game.Jump` | ScriptsGame/scriptsGame.js:108-113 | Does nothing while a jump is running or the bird is dead. Otherwise it starts a jump: counter at 0, one more live jump interval, and the position, score and pipes unchanged. |
| `Game.JumpStep` | ScriptsGame/scriptsGame.js:114-123 | One firing of a live jump interval either raises the bird by exactly `JUMP_HEIGHT` and advances the counter (while the counter is below `MICRO_JUMPS_NUMBER`), or ends the jump and drops that interval. A firing without a live interval changes nothing. |
| `Game.JumpRises` | ScriptsGame/scriptsGame.js:115-118 | While the counter has room, `n` firings raise the bird by `n * JUMP_HEIGHT`, advance the counter by `n`, and change nothing else. |
| `Game.CompleteJump` | ScriptsGame/scriptsGame.js:108-123 | After a jump starts, `MICRO_JUMPS_NUMBER` firings raise the bird by `JUMP_HEIGHT * MICRO_JUMPS_NUMBER` with the jump still running. The next firing ends it without moving the bird and restores the live-interval count. |
| `Game.JumpMovesDeadBird` | ScriptsGame/scriptsGame.js:114-123 | A jump interval still running after game over keeps raising the dead bird. |
| `Pipes.SkyHeight` | ScriptsGame/scriptsGame.js:128-134 | The sky height is the point of `[50, 370]` nearest to the draw times `(height - PIPE_GAP)`. |
| `Pipes.NewPipe` | ScriptsGame/scriptsGame.js:148-162 | A new pipe has the requested anchor and height and starts at the container's right edge. |
| `Pipes.CreatePipe` | ScriptsGame/scriptsGame.js:127-145 | Keeps the existing pipes and appends exactly two: a top pipe, then a bottom pipe, both at the right edge. The top height is `Pipes.SkyHeight` of the draw, so it lies in `[50, 370]`, and top height + bottom height + `PIPE_GAP` equals the container height. |
| `Pipes.FloorPipeNonNegative` | ScriptsGame/scriptsGame.js:128-136 | With a draw in `[0, 1)` and a container at least 230 pixels high, the bottom pipe's height is not negative. |
| `Pipes.SpawnExample` | ScriptsGame/scriptsGame.js:127-145 | In a 480-pixel container, a draw that clamps to a sky height of 50 gives a floor height of 250. |
| `Game.Spawn` | ScriptsGame/scriptsGame.js:127-145 | A spawn tick of a stopped session changes nothing. Otherwise it keeps the old pipes and appends a top pipe, then a bottom pipe. Both start at the container's width, the top pipe's height is `Pipes.SkyHeight` of the draw and lies in `[50, 370]`, and the two heights plus the gap fill the container. Nothing but the pipes changes. |
| `Pipes.PipeRect` | ScriptsGame/scriptsGame.js:157-160 | A pipe's box starts at the pipe's `left`, so it moves with the pipe. It is `PIPE_WIDTH` wide and as tall as the pipe. A top pipe's box starts at 0 and a bottom pipe's box ends at the container height. |
| `Geometry.OverlapsSymmetric` | ScriptsGame/scriptsGame.js:190-195 | The collision test gives the same answer with its two rectangles swapped. |
| `Geometry.SeparatedDoNotOverlap` | ScriptsGame/scriptsGame.js:190-195 | Rectangles that only touch at an edge, or lie apart, do not collide (in either order). |
| `Geometry.OverlapsIffCommonInteriorPoint` | ScriptsGame/scriptsGame.js:190-195 | For rectangles with positive width and height, the test holds exactly when they share an interior point. |
| `Pipes.FatesPointwise` | ScriptsGame/scriptsGame.js:166-176 | Gives each pipe one fate. The first pipe is never skipped. A pipe is skipped exactly when the pipe before it was reaped. A pipe is reaped exactly when it is not skipped and its pre-move `left` is below `-PIPE_WIDTH`. |
| `Pipes.VisitPastEnd` | ScriptsGame/scriptsGame.js:166 | `forEach` iterations at indices past the end of the shrunken array do nothing. |
| `Pipes.VisitSuffix` | ScriptsGame/scriptsGame.js:166-182 | From any index whose earlier array slots are finished, the remaining `forEach` iterations give the finished pipes followed by a walk over the untouched suffix. The walk moves a kept pipe and goes on with the next one. It drops a reaped pipe and goes on two pipes later, leaving the pipe in between as it was. The score and hit count add up the same way. |
| `Pipes.WalkMatchesFates` | ScriptsGame/scriptsGame.js:166-182 | That walk gives exactly the pipes, score and hit count that the fate-by-fate reference describes. |
| `Pipes.MovePipesMatchesReference` | ScriptsGame/scriptsGame.js:166-182 | The `forEach`-with-`splice` pass as written gives exactly the pipes, score and hit count of the fate-by-fate reference. |
| `Pipes.SurvivorsPlacement` | ScriptsGame/scriptsGame.js:166-176 | The result has one fewer pipe per reaped pipe and keeps the original order. Each pipe that is not reaped sits at its old index minus the number of pipes reaped before it. It has moved left by exactly `PIPES_VELOCITY` if visited and is unchanged if skipped. |
| `Pipes.ScoreAccounting` | ScriptsGame/scriptsGame.js:174-180 | Score gained + top pipes left = top pipes before. So the score rises by exactly the number of top pipes removed, and removed bottom pipes add nothing. |
| `Pipes.HitsIffVisitedOverlap` | ScriptsGame/scriptsGame.js:170-172 | The pass calls game over at least once exactly when some visited pipe, after moving, overlaps the bird's box. |
| `Pipes.MovePipesSpec` | ScriptsGame/scriptsGame.js:165-183 | Sums up one movePipes pass: which pipes are removed, where the rest go and how they moved, the score gained, and when game over is called. |
| `Pipes.UniformShiftWhenNothingExpired` | ScriptsGame/scriptsGame.js:167-168 | When no pipe is past the edge, every pipe moves left by exactly `PIPES_VELOCITY`, none is removed, and nothing is scored. |
| `Pipes.SkipAfterReap` | ScriptsGame/scriptsGame.js:166-176 | When the first pipe is reaped, the second pipe stays in the array unmoved, even if it is past the edge too. |
| `Game.Move` | ScriptsGame/scriptsGame.js:165-183 | A move tick of a stopped session changes nothing. Otherwise the pipes become the pass's result and the score rises by the pass's gain. The bird is dead afterwards exactly when it was dead or the pass found an overlap. The intervals stop exactly when the pass found an overlap, and one refresh timeout is scheduled per overlap found. The bird's position, jump state and refresh flag are untouched. |
| `Game.Refresh` | ScriptsGame/scriptsGame.js:94-97 | A pending game-over timeout that fires enables restart and is used up. With none pending nothing changes. Only those two fields can change. |
| `Game.Restart` | ScriptsGame/scriptsGame.js:214-235 | Score 0, no pipes, bird back at its initial offset, not dead, not jumping, restart disabled, and intervals running. The jump counter, live jump intervals and pending timeouts are kept. |
| `Game.InitInv` | ScriptsGame/scriptsGame.js:19-34 | The page's starting state satisfies the session invariant. |
| `Game.StepPreservesInv` | ScriptsGame/scriptsGame.js:82-235 | Every event keeps the invariant: intervals run exactly while the bird is alive, the jump counter stays at most `MICRO_JUMPS_NUMBER`, and a running jump has a live interval. |
| `Game.RunPreservesInv` | ScriptsGame/scriptsGame.js:214-240 | Every sequence of events keeps the invariant. |
| `Game.ReachableInv` | ScriptsGame/scriptsGame.js:237-240 | Every session reachable from page load satisfies the invariant. |
| `Game.DeadSessionFrozen` | ScriptsGame/scriptsGame.js:83-85 | In a reachable session with a dead bird, fall, spawn and move ticks change nothing. |
| `Game.RefreshOnlyFromTimeout` | ScriptsGame/scriptsGame.js:94-97 | Restart becomes enabled only when a pending game-over timeout fires. |
| `Game.TimeoutOnlyFromGameOver` | ScriptsGame/scriptsGame.js:94-97 | A new refresh timeout is scheduled only by game over, during a fall or move tick, and the bird is then dead. |
| `Game.OtherKeysIgnored` | ScriptsGame/scriptsGame.js:37-38 | A key other than Space leaves the session unchanged. |
| `Game.SpaceWhileDyingIgnored` | ScriptsGame/scriptsGame.js:39-49 | Space on a dead bird before restart is enabled changes nothing. |
| `Game.SpaceWhileAliveJumps` | ScriptsGame/scriptsGame.js:47-49 | Space on a live bird changes only the jump fields. It leaves a jump in progress, and it changes the session exactly when no jump was running. In that case the step counter is reset to 0 and one more jump interval is live. |
| `Game.SpaceRestarts` | ScriptsGame/scriptsGame.js:39-46 | Space on a dead bird with restart enabled happens only while the intervals are stopped. It gives the page-load session, except that the jump counter, the live jump intervals and the pending timeouts are kept unchanged. |
| `Game.ScoreOnlyResetByRestart` | ScriptsGame/scriptsGame.js:221 | The score decreases only through a Space restart. |
| `Game.PhaseTransitions` | ScriptsGame/scriptsGame.js:37-50 | Dying leads only to waiting for restart, and only by the timeout. Waiting leads only to running, and only by Space. Running with restart not enabled leads only to running or dying. |

## Left out

- DOM writes are left out. This covers style, class and `innerText` updates, element creation and removal, the game-over screen, and the background swaps.
- Bird class changes are left out, along with their effect on the bird's measured size. `gameOver` sets the class `birdExplosion`, and the refresh timeout sets `displayNone`. The code then measures the bird again: `offsetHeight` in the floor test, and `getBoundingClientRect()` for each remaining pipe of the same move pass. Because the stylesheet is not part of this model, the model keeps one `Layout.birdHeight` for the whole session and one bird box per move tick. So when a stale timeout hides a live bird after a restart, the model does not shrink its height.
- Layout measurements are parameters (`Config.Layout` and the bird box carried by each move tick), because layout is computed by the browser. Pipe boxes are computed from the model's own geometry in container coordinates. Borders, padding and transforms are assumed absent, and the bird box is not derived from `pos`.
- Timer periods (10 ms, 2000 ms and 800 ms) are left out. Each firing is an event, and any order of events is allowed. So the model also admits orders that the real periods would rule out, such as a jump interval still live when the game restarts.
- `Math.random()` is left out. The draw is an input to the spawn event and is not constrained in the model.
- Keyboard plumbing is left out. Only the `event.code === "Space"` test is modelled.
- Floating-point arithmetic is left out. Positions and heights are exact reals, so `GRAVITY` steps add up exactly.
- The browser's handling of a fractional or negative inline `height` is left out. The model keeps the computed number.
- Pipe `left` values are integers. The code reads them back with `parseInt` from pixel strings that only ever hold integers.

=== FILE: bird.dfy ===
/** The floor and ceiling check applied to the bird after every fall tick. */
module Bird {
  import opened Config
  import opened Nearest

  /** The bird's corrected top offset, and whether the floor was touched
      (which the caller turns into a game over). */
  datatype Bounded = Bounded(pos: real, floorHit: bool)

  /** checkCollision: the floor test runs first and moves the bird onto the
      floor; the ceiling test runs second on the possibly corrected offset
      and only moves the bird down to 0. */
  function CheckBounds(pos: real, layout: Layout): (r: Bounded)
    ensures r.floorHit <==> pos + layout.birdHeight as real >= layout.containerHeight as real
    ensures layout.birdHeight <= layout.containerHeight ==> IsNearest(r.pos, pos, 0.0, layout.FloorTop())
    ensures layout.birdHeight > layout.containerHeight ==> r.pos == 0.0
  {
    var floorHit := pos + layout.birdHeight as real >= layout.containerHeight as real;
    var afterFloor := if floorHit then layout.FloorTop() else pos;
    var afterCeiling := if afterFloor <= 0.0 then 0.0 else afterFloor;
    Bounded(afterCeiling, floorHit)
  }

  /** Checking an offset that is already in bounds changes nothing, except
      that an offset resting on the floor still counts as floor contact. */
  lemma CheckBoundsIdempotent(pos: real, layout: Layout)
    ensures CheckBounds(CheckBounds(pos, layout).pos, layout).pos == CheckBounds(pos, layout).pos
  {
  }
}

=== FILE: config.dfy ===
/** Tuning constants of the game session, and the layout measurements the
    browser supplies once the page is laid out. */
module Config {

  /** Downward displacement added by every fall tick. */
  const GRAVITY: real := 3.1

  /** Upward displacement of one jump micro-step. */
  const JUMP_HEIGHT: real := 11.0

  /** Number of micro-steps that make up one jump. */
  const MICRO_JUMPS_NUMBER: nat := 10

  /** Width of every pipe, in pixels. */
  const PIPE_WIDTH: int := 60

  /** Vertical opening between the sky pipe and the floor pipe of one pair. */
  const PIPE_GAP: real := 180.0

  /** Leftward displacement of a pipe on every move tick. */
  const PIPES_VELOCITY: int := 7

  /** Bounds into which a freshly drawn sky-pipe height is clamped. */
  const MIN_SKY: real := 50.0
  const MAX_SKY: real := 370.0

  /** Measurements taken from the page: the container's client height and
      width, the bird's offset height, and the bird's top offset inside the
      container when the page was first laid out. */
  datatype Layout = Layout(containerHeight: nat, containerWidth: nat, birdHeight: nat, initialTop: real)
  {
    /** The top offset at which the bird's bottom edge rests on the floor. */
    function FloorTop(): real
    {
      containerHeight as real - birdHeight as real
    }
  }
}

=== FILE: game.dfy ===
/** The game session: one immutable record holding what the page keeps in
    module-level variables, and one step function per event that can fire. */
module Game {
  import opened Config
  import opened Geometry
  import opened Bird
  import opened Pipes
  import opened Nearest

  /** The session state. Besides the game variables, three fields record
      which timers are live, because a timer that was never cleared can
      still fire:
      - `ticking`: the fall, move and spawn intervals (always started and
        cleared together);
      - `jumpTimers`: live jump intervals (restarting does not clear them);
      - `pendingRefresh`: game-over timeouts that have not fired yet
        (restarting does not cancel them). */
  datatype Session = Session(
    pos: real,
    isJumping: bool,
    jumpCount: nat,
    isDead: bool,
    refreshEnabled: bool,
    score: nat,
    pipes: seq<Pipe>,
    ticking: bool,
    jumpTimers: nat,
    pendingRefresh: nat)

  /** Everything that can happen to a session: a firing of one of its
      timers, or a key press. A spawn carries the random draw, which the
      page takes from `[0, 1)` but which is not constrained here; a move tick
      carries the bird's box at that moment, in the container coordinates
      that `PipeRect` uses. */
  datatype Event =
    | FallTick
    | JumpTick
    | SpawnTick(draw: real)
    | MoveTick(bird: Rect)
    | RefreshTimeout
    | KeyDown(code: string)

  /** The session when the page loads: the three intervals are started. */
  function Init(layout: Layout): Session
  {
    Session(layout.initialTop, false, 0, false, false, 0, [], true, 0, 0)
  }

  /** gameOver: clears the fall, move and spawn intervals (not a running
      jump interval), marks the bird dead and schedules one refresh timeout. */
  function GameOver(s: Session): (r: Session)
    ensures r.isDead && !r.ticking && r.pendingRefresh == s.pendingRefresh + 1
    ensures r.(isDead := s.isDead, ticking := s.ticking, pendingRefresh := s.pendingRefresh) == s
  {
    s.(isDead := true, ticking := false, pendingRefresh := s.pendingRefresh + 1)
  }

  /** gameOver called `n` times in a row, as a move pass does once for
      every visited pipe whose moved box overlaps the bird. */
  function GameOverTimes(s: Session, n: nat): (r: Session)
    ensures n == 0 ==> r == s
    ensures n > 0 ==> r.isDead && !r.ticking
    ensures r.pendingRefresh == s.pendingRefresh + n
    ensures r.(isDead := s.isDead, ticking := s.ticking, pendingRefresh := s.pendingRefresh) == s
    decreases n
  {
    if n == 0 then s else GameOverTimes(GameOver(s), n - 1)
  }

  /** fall: gravity, then the floor/ceiling check; floor contact is a game
      over, ceiling contact is not. */
  function Fall(s: Session, layout: Layout): (r: Session)
    ensures !s.ticking ==> r == s
    ensures s.ticking && layout.birdHeight <= layout.containerHeight ==> 0.0 <= r.pos <= layout.FloorTop()
    ensures s.ticking && layout.birdHeight <= layout.containerHeight ==>
              IsNearest(r.pos, s.pos + GRAVITY, 0.0, layout.FloorTop())
    ensures s.ticking ==> (r.isDead <==> s.isDead || s.pos + GRAVITY + layout.birdHeight as real >= layout.containerHeight as real)
    ensures r.score == s.score && r.pipes == s.pipes && r.refreshEnabled == s.refreshEnabled
    ensures r.isJumping == s.isJumping && r.jumpCount == s.jumpCount && r.jumpTimers == s.jumpTimers
    ensures s.ticking && s.pos + GRAVITY + layout.birdHeight as real < layout.containerHeight as real ==>
              r == s.(pos := r.pos)
    ensures s.ticking && s.pos + GRAVITY + layout.birdHeight as real >= layout.containerHeight as real ==>
              !r.ticking && r.pendingRefresh == s.pendingRefresh + 1
  {
    if !s.ticking then s
    else
      var b := CheckBounds(s.pos + GRAVITY, layout);
      var moved := s.(pos := b.pos);
      if b.floorHit then GameOver(moved) else moved
  }

  /** jump: ignored while a jump is in progress or the bird is dead;
      otherwise starts a jump interval with the step counter at 0. */
  function Jump(s: Session): (r: Session)
    ensures s.isJumping || s.isDead ==> r == s
    ensures !(s.isJumping || s.isDead) ==>
              && r.isJumping && r.jumpCount == 0 && r.jumpTimers == s.jumpTimers + 1
              && r.(isJumping := s.isJumping, jumpCount := s.jumpCount, jumpTimers := s.jumpTimers) == s
  {
    if s.isJumping || s.isDead then s
    else s.(isJumping := true, jumpCount := 0, jumpTimers := s.jumpTimers + 1)
  }

  /** One firing of a jump interval: a micro-step up while the counter is
      below the limit, otherwise the interval clears itself and the jump
      ends. It does not look at `isDead`, so it keeps moving a dead bird. */
  function JumpStep(s: Session): (r: Session)
    ensures s.jumpTimers == 0 ==> r == s
    ensures s.jumpTimers > 0 && s.jumpCount < MICRO_JUMPS_NUMBER ==>
              r == s.(pos := s.pos - JUMP_HEIGHT, jumpCount := s.jumpCount + 1)
    ensures s.jumpTimers > 0 && s.jumpCount >= MICRO_JUMPS_NUMBER ==>
              r == s.(isJumping := false, jumpTimers := s.jumpTimers - 1)
  {
    if s.jumpTimers == 0 then s
    else if s.jumpCount < MICRO_JUMPS_NUMBER then s.(pos := s.pos - JUMP_HEIGHT, jumpCount := s.jumpCount + 1)
    else s.(isJumping := false, jumpTimers := s.jumpTimers - 1)
  }

  /** One firing of the spawn interval: createPipe. */
  function Spawn(s: Session, draw: real, layout: Layout): (r: Session)
    ensures !s.ticking ==> r == s
    ensures s.ticking ==> |r.pipes| == |s.pipes| + 2 && r.pipes[..|s.pipes|] == s.pipes
    ensures s.ticking ==> r.pipes[|s.pipes|].anchor == Top && r.pipes[|s.pipes| + 1].anchor == Bottom
    ensures s.ticking ==> r.pipes[|s.pipes|].left == layout.containerWidth && r.pipes[|s.pipes| + 1].left == layout.containerWidth
    ensures s.ticking ==> MIN_SKY <= r.pipes[|s.pipes|].height <= MAX_SKY
    ensures s.ticking ==> r.pipes[|s.pipes|].height == SkyHeight(draw, layout)
    ensures s.ticking ==> r.pipes[|s.pipes|].height + r.pipes[|s.pipes| + 1].height + PIPE_GAP == layout.containerHeight as real
    ensures r.(pipes := s.pipes) == s
  {
    if !s.ticking then s else s.(pipes := CreatePipe(s.pipes, draw, layout))
  }

  /** One firing of the move interval: a movePipes pass, adding its score
      and calling gameOver once for every visited pipe whose moved box
      overlaps the bird. */
  function Move(s: Session, bird: Rect, layout: Layout): (r: Session)
    ensures !s.ticking ==> r == s
    ensures s.ticking ==> r.pipes == MovePipes(s.pipes, bird, layout).pipes
    ensures s.ticking ==> r.score == s.score + MovePipes(s.pipes, bird, layout).scored
    ensures s.ticking ==> (r.isDead <==> s.isDead || MovePipes(s.pipes, bird, layout).hits > 0)
    ensures s.ticking ==> (r.ticking <==> MovePipes(s.pipes, bird, layout).hits == 0)
    ensures s.ticking ==> r.pendingRefresh == s.pendingRefresh + MovePipes(s.pipes, bird, layout).hits
    ensures r.pos == s.pos && r.isJumping == s.isJumping && r.jumpCount == s.jumpCount
    ensures r.jumpTimers == s.jumpTimers && r.refreshEnabled == s.refreshEnabled
  {
    if !s.ticking then s
    else
      var pass := MovePipes(s.pipes, bird, layout);
      GameOverTimes(s.(pipes := pass.pipes, score := s.score + pass.scored), pass.hits)
  }

  /** The delayed part of gameOver: when a pending timeout fires, restart
      becomes possible. */
  function Refresh(s: Session): (r: Session)
    ensures s.pendingRefresh == 0 ==> r == s
    ensures s.pendingRefresh > 0 ==> r.refreshEnabled && r.pendingRefresh == s.pendingRefresh - 1
    ensures r.(refreshEnabled := s.refreshEnabled, pendingRefresh := s.pendingRefresh) == s
  {
    if s.pendingRefresh == 0 then s
    else s.(refreshEnabled := true, pendingRefresh := s.pendingRefresh - 1)
  }

  /** restartGame: a fresh bird, no pipes, no score, and the three intervals
      started again. The jump counter, live jump intervals and pending
      refresh timeouts are left as they are. */
  function Restart(s: Session, layout: Layout): (r: Session)
    ensures r.score == 0 && r.pipes == [] && r.pos == layout.initialTop
    ensures !r.isDead && !r.isJumping && !r.refreshEnabled && r.ticking
    ensures r.jumpCount == s.jumpCount && r.jumpTimers == s.jumpTimers && r.pendingRefresh == s.pendingRefresh
  {
    s.(refreshEnabled := false, pos := layout.initialTop, isDead := false, isJumping := false,
       score := 0, pipes := [], ticking := true)
  }

  /** The keydown handler: only Space does anything; it restarts a dead
      session once restart is enabled, and otherwise asks for a jump. */
  function Key(s: Session, code: string, layout: Layout): Session
  {
    if code != "Space" then s
    else if s.isDead && s.refreshEnabled then Restart(s, layout)
    else Jump(s)
  }

  /** The session after one event. */
  function Step(s: Session, e: Event, layout: Layout): Session
  {
    match e
    case FallTick => Fall(s, layout)
    case JumpTick => JumpStep(s)
    case SpawnTick(draw) => Spawn(s, draw, layout)
    case MoveTick(bird) => Move(s, bird, layout)
    case RefreshTimeout => Refresh(s)
    case KeyDown(code) => Key(s, code, layout)
  }

  /** The session after a sequence of events, first event first. */
  function Run(s: Session, es: seq<Event>, layout: Layout): Session
    decreases |es|
  {
    if |es| == 0 then s else Run(Step(s, es[0], layout), es[1..], layout)
  }

  // ---------------------------------------------------------------------
  // Floor and ceiling
  // ---------------------------------------------------------------------

  /** Floor contact after gravity puts the bird on the floor (or at 0 if it
      is taller than the container) and ends the game. */
  lemma FloorContactIsFatal(s: Session, layout: Layout)
    requires s.ticking
    requires s.pos + GRAVITY + layout.birdHeight as real >= layout.containerHeight as real
    ensures var r := Fall(s, layout);
            && r.pos == (if layout.FloorTop() <= 0.0 then 0.0 else layout.FloorTop())
            && r.isDead && !r.ticking && r.pendingRefresh == s.pendingRefresh + 1
  {
  }

  /** Ceiling contact after gravity only puts the bird back at 0. */
  lemma CeilingContactIsHarmless(s: Session, layout: Layout)
    requires s.ticking
    requires s.pos + GRAVITY <= 0.0
    requires s.pos + GRAVITY + layout.birdHeight as real < layout.containerHeight as real
    ensures var r := Fall(s, layout);
            r == s.(pos := 0.0)
  {
  }

  // ---------------------------------------------------------------------
  // Invariants of reachable sessions
  // ---------------------------------------------------------------------

  /** What holds of every session reachable from `Init`: the fall, move
      and spawn intervals run exactly while the bird is alive (so a restart
      never starts them twice), the jump counter never passes its limit,
      and a jump in progress always has a live interval to finish it. */
  ghost predicate Inv(s: Session)
  {
    && (s.isDead <==> !s.ticking)
    && s.jumpCount <= MICRO_JUMPS_NUMBER
    && (s.isJumping ==> s.jumpTimers > 0)
  }

  lemma InitInv(layout: Layout)
    ensures Inv(Init(layout))
  {
  }

  lemma StepPreservesInv(s: Session, e: Event, layout: Layout)
    requires Inv(s)
    ensures Inv(Step(s, e, layout))
  {
  }

  /** Every session reachable by a sequence of events satisfies `Inv`. */
  lemma {:induction false} RunPreservesInv(s: Session, es: seq<Event>, layout: Layout)
    requires Inv(s)
    ensures Inv(Run(s, es, layout))
    decreases |es|
  {
    if |es| > 0 {
      StepPreservesInv(s, es[0], layout);
      RunPreservesInv(Step(s, es[0], layout), es[1..], layout);
    }
  }

  lemma ReachableInv(es: seq<Event>, layout: Layout)
    ensures Inv(Run(Init(layout), es, layout))
  {
    InitInv(layout);
    RunPreservesInv(Init(layout), es, layout);
  }

  // ---------------------------------------------------------------------
  // Death and restart
  // ---------------------------------------------------------------------

  /** Once the bird is dead, the cleared fall, move and spawn intervals
      never change the session again. */
  lemma DeadSessionFrozen(s: Session, e: Event, layout: Layout)
    requires Inv(s) && s.isDead
    requires e.FallTick? || e.SpawnTick? || e.MoveTick?
    ensures Step(s, e, layout) == s
  {
  }

  /** gameOver does not clear a running jump interval, so a dead bird can
      still rise. */
  lemma JumpMovesDeadBird(s: Session, layout: Layout)
    requires s.isDead && s.jumpTimers > 0 && s.jumpCount < MICRO_JUMPS_NUMBER
    ensures var r := Step(s, JumpTick, layout);
            r.isDead && r.pos == s.pos - JUMP_HEIGHT
  {
  }

  /** Restart becomes possible only through a game-over timeout firing. */
  lemma RefreshOnlyFromTimeout(s: Session, e: Event, layout: Layout)
    requires !s.refreshEnabled && Step(s, e, layout).refreshEnabled
    ensures e == RefreshTimeout && s.pendingRefresh > 0
  {
  }

  /** A refresh timeout is scheduled only by a game over, during a fall or
      a move tick. */
  lemma TimeoutOnlyFromGameOver(s: Session, e: Event, layout: Layout)
    requires Step(s, e, layout).pendingRefresh > s.pendingRefresh
    ensures (e == FallTick || e.MoveTick?) && Step(s, e, layout).isDead
  {
  }

  /** Keys other than Space are ignored. */
  lemma OtherKeysIgnored(s: Session, code: string, layout: Layout)
    requires code != "Space"
    ensures Step(s, KeyDown(code), layout) == s
  {
  }

  /** Space on a dead bird before the timeout fired does nothing. */
  lemma SpaceWhileDyingIgnored(s: Session, layout: Layout)
    requires s.isDead && !s.refreshEnabled
    ensures Step(s, KeyDown("Space"), layout) == s
  {
  }

  /** Space on a live bird only starts a jump (when none is running): it
      does not move the bird, touch the pipes or the score, or restart. */
  lemma SpaceWhileAliveJumps(s: Session, layout: Layout)
    requires !s.isDead
    ensures var r := Step(s, KeyDown("Space"), layout);
            && r.(isJumping := s.isJumping, jumpCount := s.jumpCount, jumpTimers := s.jumpTimers) == s
            && r.isJumping
            && (r != s <==> !s.isJumping)
            && (!s.isJumping ==> r.jumpCount == 0 && r.jumpTimers == s.jumpTimers + 1)
  {
  }

  /** Space on a dead bird after the timeout fired restarts: the result is
      the initial session except for the leftover jump counter and timers,
      and the intervals it starts were not running. */
  lemma SpaceRestarts(s: Session, layout: Layout)
    requires Inv(s) && s.isDead && s.refreshEnabled
    ensures !s.ticking
    ensures var r := Step(s, KeyDown("Space"), layout);
            && r.(jumpCount := 0, jumpTimers := 0, pendingRefresh := 0) == Init(layout)
            && r.jumpCount == s.jumpCount && r.jumpTimers == s.jumpTimers
            && r.pendingRefresh == s.pendingRefresh
  {
  }

  /** The score never drops except by a restart. */
  lemma ScoreOnlyResetByRestart(s: Session, e: Event, layout: Layout)
    requires Step(s, e, layout).score < s.score
    ensures e == KeyDown("Space") && s.isDead && s.refreshEnabled
  {
  }

  /** The phases the game passes through: running, dying (dead, restart
      not yet possible) and waiting for a restart. */
  datatype Phase = Running | Dying | WaitingRestart

  function PhaseOf(s: Session): Phase
  {
    if !s.isDead then Running else if !s.refreshEnabled then Dying else WaitingRestart
  }

  /** The phase machine: dying leads only to waiting, by the timeout;
      waiting leads only to running, by Space; running with no restart
      enabled leads only to dying. */
  lemma PhaseTransitions(s: Session, e: Event, layout: Layout)
    ensures var q := PhaseOf(Step(s, e, layout));
            && (PhaseOf(s) == Dying ==> q == Dying || (q == WaitingRestart && e == RefreshTimeout))
            && (PhaseOf(s) == WaitingRestart ==> q == WaitingRestart || (q == Running && e == KeyDown("Space")))
            && (PhaseOf(s) == Running && !s.refreshEnabled ==> q == Running || q == Dying)
  {
  }

  // ---------------------------------------------------------------------
  // Falling without jumping
  // ---------------------------------------------------------------------

  /** `n` fall ticks in a row. */
  function FallTicks(s: Session, layout: Layout, n: nat): Session
    decreases n
  {
    if n == 0 then s else FallTicks(Fall(s, layout), layout, n - 1)
  }

  /** A dead bird stays dead under fall ticks. */
  lemma {:induction false} FallTicksKeepDead(s: Session, layout: Layout, n: nat)
    requires s.isDead
    ensures FallTicks(s, layout, n).isDead
    decreases n
  {
    if n > 0 {
      FallTicksKeepDead(Fall(s, layout), layout, n - 1);
    }
  }

  /** One fall tick of a live bird that gravity brings below the ceiling
      without reaching the floor moves it down by exactly `GRAVITY`, even
      when it starts slightly above the ceiling after a jump step. */
  lemma FallOneTick(s: Session, layout: Layout)
    requires Inv(s) && !s.isDead && s.pos + GRAVITY > 0.0
    requires !Fall(s, layout).isDead
    ensures Fall(s, layout).pos == s.pos + GRAVITY
  {
  }

  /** While it stays alive, a bird that starts at or below the ceiling
      descends by exactly `GRAVITY` per fall tick. */
  lemma {:induction false} FallIsUniform(s: Session, layout: Layout, n: nat)
    requires Inv(s) && !s.isDead && s.pos >= 0.0
    requires !FallTicks(s, layout, n).isDead
    ensures FallTicks(s, layout, n).pos == s.pos + n as real * GRAVITY
    decreases n
  {
    if n > 0 {
      var t := Fall(s, layout);
      StepPreservesInv(s, FallTick, layout);
      if t.isDead {
        FallTicksKeepDead(t, layout, n - 1);
      } else {
        FallOneTick(s, layout);
        FallIsUniform(t, layout, n - 1);
      }
    }
  }

  /** Without jumps, a live bird at or below the ceiling is dead after any
      number `n >= 1` of fall ticks that covers the distance to the floor. */
  lemma {:induction false} FallReachesFloor(s: Session, layout: Layout, n: nat)
    requires Inv(s) && !s.isDead && s.pos >= 0.0
    requires n >= 1 && n as real * GRAVITY >= layout.FloorTop() - s.pos
    ensures FallTicks(s, layout, n).isDead
    decreases n
  {
    var t := Fall(s, layout);
    StepPreservesInv(s, FallTick, layout);
    if t.isDead {
      FallTicksKeepDead(t, layout, n - 1);
    } else {
      FallOneTick(s, layout);
      FallReachesFloor(t, layout, n - 1);
    }
  }

  // ---------------------------------------------------------------------
  // Jumping
  // ---------------------------------------------------------------------

  /** `n` firings of the jump interval in a row. */
  function JumpTicks(s: Session, n: nat): Session
    decreases n
  {
    if n == 0 then s else JumpTicks(JumpStep(s), n - 1)
  }

  /** While the counter has room, each firing raises the bird by exactly
      one step and nothing else changes. */
  lemma {:induction false} JumpRises(s: Session, n: nat)
    requires s.jumpTimers > 0 && s.jumpCount + n <= MICRO_JUMPS_NUMBER
    ensures JumpTicks(s, n) == s.(pos := s.pos - n as real * JUMP_HEIGHT, jumpCount := s.jumpCount + n)
    decreases n
  {
    if n > 0 {
      JumpRises(JumpStep(s), n - 1);
    }
  }

  /** A complete jump: after it starts, `MICRO_JUMPS_NUMBER` firings raise
      the bird by `JUMP_HEIGHT * MICRO_JUMPS_NUMBER` with the jump still in
      progress, and the next firing ends it without moving the bird. */
  lemma CompleteJump(s: Session)
    requires !s.isJumping && !s.isDead
    ensures var t := JumpTicks(Jump(s), MICRO_JUMPS_NUMBER);
            && t.pos == s.pos - JUMP_HEIGHT * MICRO_JUMPS_NUMBER as real
            && t.isJumping && t.jumpCount == MICRO_JUMPS_NUMBER
            && var u := JumpStep(t);
               !u.isJumping && u.pos == t.pos && u.jumpTimers == s.jumpTimers
  {
  }
}

=== FILE: geometry.dfy ===
/** Axis-aligned rectangles and the overlap test used for pipe collisions. */
module Geometry {

  /** A rectangle as reported by a bounding-box query: `left < right` and
      `top < bottom` for any element with a visible extent. */
  datatype Rect = Rect(left: real, top: real, right: real, bottom: real)

  /** The collision test between the bird and a pipe: every comparison is
      strict, so boxes that share only an edge do not collide. */
  predicate Overlaps(a: Rect, b: Rect)
  {
    && a.right > b.left
    && a.left < b.right
    && a.bottom > b.top
    && a.top < b.bottom
  }

  /** The rectangle has a positive width and a positive height. */
  predicate Proper(r: Rect)
  {
    r.left < r.right && r.top < r.bottom
  }

  /** The point `(x, y)` lies strictly inside `r`. */
  predicate Inside(r: Rect, x: real, y: real)
  {
    r.left < x < r.right && r.top < y < r.bottom
  }

  function Max(a: real, b: real): real { if a <= b then b else a }
  function Min(a: real, b: real): real { if a <= b then a else b }

  /** The test does not depend on which rectangle is the bird. */
  lemma OverlapsSymmetric(a: Rect, b: Rect)
    ensures Overlaps(a, b) <==> Overlaps(b, a)
  {
  }

  /** Rectangles that meet along an edge, or lie apart, do not collide. */
  lemma SeparatedDoNotOverlap(a: Rect, b: Rect)
    requires a.right <= b.left || b.right <= a.left || a.bottom <= b.top || b.bottom <= a.top
    ensures !Overlaps(a, b) && !Overlaps(b, a)
  {
  }

  /** For rectangles with an extent, the strict test holds exactly when the
      two rectangles share an interior point. */
  lemma OverlapsIffCommonInteriorPoint(a: Rect, b: Rect)
    requires Proper(a) && Proper(b)
    ensures Overlaps(a, b) <==> exists x, y :: Inside(a, x, y) && Inside(b, x, y)
  {
    if Overlaps(a, b) {
      var x := (Max(a.left, b.left) + Min(a.right, b.right)) / 2.0;
      var y := (Max(a.top, b.top) + Min(a.bottom, b.bottom)) / 2.0;
      assert Inside(a, x, y) && Inside(b, x, y);
    }
  }
}

=== FILE: nearest.dfy ===
/** Distances on the real line, used to state what a clamp computes. */
module Nearest {

  /** Distance between two reals. */
  function Dist(a: real, b: real): real
  {
    if a <= b then b - a else a - b
  }

  /** `r` is a point of `[lo, hi]` that is as close to `x` as any point of
      that range. */
  ghost predicate IsNearest(r: real, x: real, lo: real, hi: real)
  {
    && lo <= r <= hi
    && forall y :: lo <= y <= hi ==> Dist(r, x) <= Dist(y, x)
  }
}

=== FILE: pipes.dfy ===
/** The obstacle field: spawning a sky/floor pipe pair, and the move pass
    that shifts every pipe, reaps pipes that left the screen and scores. */
module Pipes {
  import opened Config
  import opened Nearest
  import opened Geometry

  /** Which container edge a pipe is attached to; a `Top` pipe is the one
      whose inline `top` style reads "0px". */
  datatype Anchor = Top | Bottom

  /** A pipe: its anchor, its height, and its `left` style as the integer
      the move pass reads back. Every pipe has width `PIPE_WIDTH`. */
  datatype Pipe = Pipe(anchor: Anchor, height: real, left: int)

  // ---------------------------------------------------------------------
  // Spawning
  // ---------------------------------------------------------------------

  /** The height the gap leaves for the two pipes of a pair. */
  function Room(layout: Layout): real
  {
    layout.containerHeight as real - PIPE_GAP
  }

  /** The random draw scaled to that room. */
  function ScaledDraw(draw: real, layout: Layout): real
  {
    draw * Room(layout)
  }

  /** The sky-pipe height for a random draw: the scaled draw clamped into
      `[MIN_SKY, MAX_SKY]`. */
  function SkyHeight(draw: real, layout: Layout): (r: real)
    ensures IsNearest(r, ScaledDraw(draw, layout), MIN_SKY, MAX_SKY)
  {
    var raw := ScaledDraw(draw, layout);
    if raw < MIN_SKY then MIN_SKY
    else if raw > MAX_SKY then MAX_SKY
    else raw
  }

  /** createPipeElement, geometry only: a new pipe starts at the right edge
      of the container. */
  function NewPipe(anchor: Anchor, height: real, layout: Layout): (p: Pipe)
    ensures p.anchor == anchor && p.height == height && p.left == layout.containerWidth
  {
    Pipe(anchor, height, layout.containerWidth)
  }

  /** createPipe: appends the sky pipe, then the floor pipe, whose heights
      together with the gap fill the container. */
  function CreatePipe(ps: seq<Pipe>, draw: real, layout: Layout): (r: seq<Pipe>)
    ensures |r| == |ps| + 2 && r[..|ps|] == ps
    ensures r[|ps|].anchor == Top && r[|ps| + 1].anchor == Bottom
    ensures r[|ps|].left == layout.containerWidth && r[|ps| + 1].left == layout.containerWidth
    ensures MIN_SKY <= r[|ps|].height <= MAX_SKY
    ensures r[|ps|].height == SkyHeight(draw, layout)
    ensures r[|ps|].height + r[|ps| + 1].height + PIPE_GAP == layout.containerHeight as real
  {
    var sky := SkyHeight(draw, layout);
    var floor := layout.containerHeight as real - sky - PIPE_GAP;
    ps + [NewPipe(Top, sky, layout), NewPipe(Bottom, floor, layout)]
  }

  /** With a draw in `[0, 1)` and a container tall enough for the smallest
      sky pipe plus the gap, the floor pipe never gets a negative height. */
  lemma FloorPipeNonNegative(ps: seq<Pipe>, draw: real, layout: Layout)
    requires 0.0 <= draw < 1.0
    requires layout.containerHeight as real >= MIN_SKY + PIPE_GAP
    ensures CreatePipe(ps, draw, layout)[|ps| + 1].height >= 0.0
  {
    ScaledDrawBelowRoom(draw, layout);
    assert SkyHeight(draw, layout) <= Room(layout);
  }

  /** A draw below 1 never scales past the room left by the gap. */
  lemma ScaledDrawBelowRoom(draw: real, layout: Layout)
    requires 0.0 <= draw < 1.0
    requires layout.containerHeight as real >= PIPE_GAP
    ensures ScaledDraw(draw, layout) <= Room(layout)
  {
    ScaleBelow(draw, Room(layout));
  }

  /** Scaling by a factor below 1 does not enlarge a non-negative amount. */
  lemma ScaleBelow(d: real, x: real)
    requires 0.0 <= d < 1.0 && x >= 0.0
    ensures d * x <= x
  {
  }

  /** A container 480 pixels high with a draw that clamps to the smallest
      sky pipe gives a floor pipe of 250 pixels. */
  lemma SpawnExample(width: nat, birdHeight: nat, initialTop: real)
    ensures var r := CreatePipe([], 0.1, Layout(480, width, birdHeight, initialTop));
            r[0].height == 50.0 && r[1].height == 250.0
  {
  }

  // ---------------------------------------------------------------------
  // Moving, colliding, reaping
  // ---------------------------------------------------------------------

  /** The pipe one move tick later. */
  function Shift(p: Pipe): Pipe
  {
    p.(left := p.left - PIPES_VELOCITY)
  }

  /** The pipe's pre-move position is fully past the left edge. */
  predicate Expired(p: Pipe)
  {
    p.left < -PIPE_WIDTH
  }

  /** The pipe's box in container coordinates: a top pipe hangs from 0, a
      bottom pipe stands on the container's floor. */
  function PipeRect(p: Pipe, layout: Layout): (r: Rect)
    ensures r.left == p.left as real
    ensures r.right - r.left == PIPE_WIDTH as real
    ensures p.anchor == Top ==> r.top == 0.0
    ensures p.anchor == Bottom ==> r.bottom == layout.containerHeight as real
    ensures r.bottom - r.top == p.height
  {
    var h := layout.containerHeight as real;
    Rect(p.left as real,
         if p.anchor == Top then 0.0 else h - p.height,
         (p.left + PIPE_WIDTH) as real,
         if p.anchor == Top then p.height else h)
  }

  /** 1 when the bird's box overlaps the pipe after it moved, else 0. */
  function HitCount(p: Pipe, bird: Rect, layout: Layout): nat
  {
    if Overlaps(bird, PipeRect(Shift(p), layout)) then 1 else 0
  }

  /** 1 for a top pipe (the one that scores when reaped), else 0. */
  function TopCount(p: Pipe): nat
  {
    if p.anchor == Top then 1 else 0
  }

  /** The state threaded through one move pass: the current pipe array, the
      number of score increments, and the number of game-over calls. */
  datatype Pass = Pass(pipes: seq<Pipe>, scored: nat, hits: nat)

  /** The body of the pipes `forEach` at index `k`, which must be present:
      read the pipe's position, store the shifted position, test the moved
      pipe against the bird, and splice it out if its pre-move position
      was past the edge (scoring it if it is a top pipe). */
  function Iteration(k: nat, acc: Pass, bird: Rect, layout: Layout): Pass
    requires k < |acc.pipes|
  {
    var p := acc.pipes[k];
    var moved := acc.pipes[k := Shift(p)];
    var hits := acc.hits + HitCount(p, bird, layout);
    if Expired(p) then Pass(moved[..k] + moved[k + 1..], acc.scored + TopCount(p), hits)
    else Pass(moved, acc.scored, hits)
  }

  /** The iterations of the pipes `forEach` from index `k` on. The
      iteration count `n0` is the array length when the pass began; an
      index no longer present in the (shrunken) array is skipped. */
  function Visit(k: nat, n0: nat, acc: Pass, bird: Rect, layout: Layout): Pass
    decreases n0 - k
  {
    if k >= n0 then acc
    else if k >= |acc.pipes| then Visit(k + 1, n0, acc, bird, layout)
    else Visit(k + 1, n0, Iteration(k, acc, bird, layout), bird, layout)
  }

  /** movePipes as written: a `forEach` over the array that the body splices. */
  function MovePipes(ps: seq<Pipe>, bird: Rect, layout: Layout): Pass
  {
    Visit(0, |ps|, Pass(ps, 0, 0), bird, layout)
  }

  // ---------------------------------------------------------------------
  // Reference description of a move pass
  // ---------------------------------------------------------------------

  /** What a move pass does to one pipe: it is moved, it is moved and
      reaped, or it is skipped because the pipe before it was spliced out
      and the iteration index stepped over it. */
  datatype Fate = Moved | Reaped | Skipped

  /** The fate of every pipe of the array at the start of a pass: a pipe
      right after a reaped one is skipped, any other pipe is reaped if it
      is past the edge and moved otherwise. */
  function Fates(ps: seq<Pipe>): (fs: seq<Fate>)
    ensures |fs| == |ps|
    decreases |ps|
  {
    if |ps| == 0 then []
    else if !Expired(ps[0]) then [Moved] + Fates(ps[1..])
    else if |ps| == 1 then [Reaped]
    else [Reaped, Skipped] + Fates(ps[2..])
  }

  /** The fates pipe by pipe: the first pipe is visited, a pipe is skipped
      exactly when the one before it was reaped, and a visited pipe is
      reaped exactly when its pre-move position is past the edge. */
  lemma {:induction false} FatesPointwise(ps: seq<Pipe>)
    ensures var fs := Fates(ps);
            && (|ps| > 0 ==> fs[0] != Skipped)
            && (forall i, j :: 0 <= i && j == i + 1 && j < |ps| ==> (fs[j] == Skipped <==> fs[i] == Reaped))
            && (forall i :: 0 <= i < |ps| ==> (fs[i] == Reaped <==> fs[i] != Skipped && Expired(ps[i])))
    decreases |ps|
  {
    var fs := Fates(ps);
    if |ps| == 0 {
    } else if !Expired(ps[0]) {
      FatesPointwise(ps[1..]);
      assert fs == [Moved] + Fates(ps[1..]);
    } else if |ps| == 1 {
    } else {
      FatesPointwise(ps[2..]);
      assert fs == [Reaped, Skipped] + Fates(ps[2..]);
    }
  }

  /** The pipes left after a pass with the given fates, in order. */
  function Survivors(ps: seq<Pipe>, fs: seq<Fate>): seq<Pipe>
    requires |fs| == |ps|
    decreases |ps|
  {
    if |ps| == 0 then []
    else
      var rest := Survivors(ps[1..], fs[1..]);
      match fs[0]
      case Moved => [Shift(ps[0])] + rest
      case Skipped => [ps[0]] + rest
      case Reaped => rest
  }

  /** Number of reaped top pipes. */
  function ReapedTops(ps: seq<Pipe>, fs: seq<Fate>): nat
    requires |fs| == |ps|
    decreases |ps|
  {
    if |ps| == 0 then 0
    else (if fs[0] == Reaped then TopCount(ps[0]) else 0) + ReapedTops(ps[1..], fs[1..])
  }

  /** Number of visited pipes whose moved box overlaps the bird. */
  function VisitedHits(ps: seq<Pipe>, fs: seq<Fate>, bird: Rect, layout: Layout): nat
    requires |fs| == |ps|
    decreases |ps|
  {
    if |ps| == 0 then 0
    else (if fs[0] != Skipped then HitCount(ps[0], bird, layout) else 0) + VisitedHits(ps[1..], fs[1..], bird, layout)
  }

  /** The pass described pipe by pipe through the fates. */
  function Reference(ps: seq<Pipe>, bird: Rect, layout: Layout): Pass
  {
    var fs := Fates(ps);
    Pass(Survivors(ps, fs), ReapedTops(ps, fs), VisitedHits(ps, fs, bird, layout))
  }

  /** Number of reaped pipes among the fates. */
  function Reaps(fs: seq<Fate>): nat
    decreases |fs|
  {
    if |fs| == 0 then 0 else (if fs[0] == Reaped then 1 else 0) + Reaps(fs[1..])
  }

  /** Number of top pipes in a pipe array. */
  function CountTops(ps: seq<Pipe>): nat
    decreases |ps|
  {
    if |ps| == 0 then 0 else TopCount(ps[0]) + CountTops(ps[1..])
  }

  // ---------------------------------------------------------------------
  // The pass as written agrees with the reference
  // ---------------------------------------------------------------------

  /** The pass as a walk over the original array: a kept pipe is moved and
      the walk goes on with the next one; a reaped pipe is dropped and the
      walk resumes two pipes later, leaving the pipe in between as it was. */
  function Walk(ps: seq<Pipe>, bird: Rect, layout: Layout): Pass
    decreases |ps|
  {
    if |ps| == 0 then Pass([], 0, 0)
    else
      var hit := HitCount(ps[0], bird, layout);
      if !Expired(ps[0]) then
        var r := Walk(ps[1..], bird, layout);
        Pass([Shift(ps[0])] + r.pipes, r.scored, hit + r.hits)
      else if |ps| == 1 then Pass([], TopCount(ps[0]), hit)
      else
        var r := Walk(ps[2..], bird, layout);
        Pass([ps[1]] + r.pipes, TopCount(ps[0]) + r.scored, hit + r.hits)
  }

  /** Once the index is past the end of the array, the remaining iterations
      of the `forEach` do nothing. */
  lemma {:induction false} VisitPastEnd(k: nat, n0: nat, acc: Pass, bird: Rect, layout: Layout)
    requires k >= |acc.pipes|
    ensures Visit(k, n0, acc, bird, layout) == acc
    decreases n0 - k
  {
    if k < n0 {
      VisitPastEnd(k + 1, n0, acc, bird, layout);
    }
  }

  /** One step of the `forEach` at an index that is present. */
  lemma VisitUnfold(k: nat, n0: nat, acc: Pass, bird: Rect, layout: Layout)
    requires k < n0 && k < |acc.pipes|
    ensures Visit(k, n0, acc, bird, layout) == Visit(k + 1, n0, Iteration(k, acc, bird, layout), bird, layout)
  {
  }

  /** The `forEach` body at the first untouched pipe, when that pipe stays. */
  lemma IterationKeeps(done: seq<Pipe>, rest: seq<Pipe>, scored: nat, hits: nat, bird: Rect, layout: Layout)
    requires |rest| > 0 && !Expired(rest[0])
    ensures Iteration(|done|, Pass(done + rest, scored, hits), bird, layout)
            == Pass((done + [Shift(rest[0])]) + rest[1..], scored, hits + HitCount(rest[0], bird, layout))
  {
  }

  /** The `forEach` body at the first untouched pipe, when that pipe is
      spliced out: the array closes up over it. */
  lemma IterationReaps(done: seq<Pipe>, rest: seq<Pipe>, scored: nat, hits: nat, bird: Rect, layout: Layout)
    requires |rest| > 0 && Expired(rest[0])
    ensures Iteration(|done|, Pass(done + rest, scored, hits), bird, layout)
            == Pass(done + rest[1..], scored + TopCount(rest[0]), hits + HitCount(rest[0], bird, layout))
  {
  }

  /** The iterations from index `k` on, when the first `k` array slots hold
      finished pipes `done` and the rest of the array is the untouched
      suffix `rest` of the original array. Each splice leaves one more
      iteration than there are untouched pipes, hence `>=`. */
  lemma {:induction false} VisitSuffix(k: nat, n0: nat, done: seq<Pipe>, rest: seq<Pipe>, scored: nat, hits: nat,
                                       bird: Rect, layout: Layout)
    requires |done| == k && n0 >= k + |rest|
    ensures var w := Walk(rest, bird, layout);
            Visit(k, n0, Pass(done + rest, scored, hits), bird, layout)
            == Pass(done + w.pipes, scored + w.scored, hits + w.hits)
    decreases |rest|, 1
  {
    if |rest| == 0 {
      assert done + rest == done;
      VisitPastEnd(k, n0, Pass(done + rest, scored, hits), bird, layout);
    } else if !Expired(rest[0]) {
      VisitSuffixKeeps(k, n0, done, rest, scored, hits, bird, layout);
    } else {
      VisitSuffixReaps(k, n0, done, rest, scored, hits, bird, layout);
    }
  }

  /** `VisitSuffix` when the first untouched pipe stays. */
  lemma {:induction false} VisitSuffixKeeps(k: nat, n0: nat, done: seq<Pipe>, rest: seq<Pipe>, scored: nat, hits: nat,
                                            bird: Rect, layout: Layout)
    requires |done| == k && n0 >= k + |rest|
    requires |rest| > 0 && !Expired(rest[0])
    ensures var w := Walk(rest, bird, layout);
            Visit(k, n0, Pass(done + rest, scored, hits), bird, layout)
            == Pass(done + w.pipes, scored + w.scored, hits + w.hits)
    decreases |rest|, 0
  {
    var p := rest[0];
    var done' := done + [Shift(p)];
    var h := hits + HitCount(p, bird, layout);
    VisitUnfold(k, n0, Pass(done + rest, scored, hits), bird, layout);
    IterationKeeps(done, rest, scored, hits, bird, layout);
    VisitSuffix(k + 1, n0, done', rest[1..], scored, h, bird, layout);
    var w := Walk(rest[1..], bird, layout);
    assert done + ([Shift(p)] + w.pipes) == done' + w.pipes;
  }

  /** `VisitSuffix` when the first untouched pipe is spliced out; the next
      index steps over its successor. */
  lemma {:induction false} VisitSuffixReaps(k: nat, n0: nat, done: seq<Pipe>, rest: seq<Pipe>, scored: nat, hits: nat,
                                            bird: Rect, layout: Layout)
    requires |done| == k && n0 >= k + |rest|
    requires |rest| > 0 && Expired(rest[0])
    ensures var w := Walk(rest, bird, layout);
            Visit(k, n0, Pass(done + rest, scored, hits), bird, layout)
            == Pass(done + w.pipes, scored + w.scored, hits + w.hits)
    decreases |rest|, 0
  {
    var p := rest[0];
    var h := hits + HitCount(p, bird, layout);
    VisitUnfold(k, n0, Pass(done + rest, scored, hits), bird, layout);
    IterationReaps(done, rest, scored, hits, bird, layout);
    if |rest| == 1 {
      assert done + rest[1..] == done;
      VisitPastEnd(k + 1, n0, Pass(done, scored + TopCount(p), h), bird, layout);
    } else {
      var done' := done + [rest[1]];
      var tail := rest[2..];
      assert done + rest[1..] == done' + tail;
      VisitSuffix(k + 1, n0, done', tail, scored + TopCount(p), h, bird, layout);
      var w := Walk(tail, bird, layout);
      assert done + ([rest[1]] + w.pipes) == done' + w.pipes;
    }
  }

  /** The walk describes the same pass as the fates. */
  lemma {:induction false} WalkMatchesFates(ps: seq<Pipe>, bird: Rect, layout: Layout)
    ensures Walk(ps, bird, layout) == Reference(ps, bird, layout)
    decreases |ps|
  {
    var fs := Fates(ps);
    if |ps| == 0 {
    } else if !Expired(ps[0]) {
      WalkMatchesFates(ps[1..], bird, layout);
      assert fs == [Moved] + Fates(ps[1..]);
      assert fs[1..] == Fates(ps[1..]);
    } else if |ps| == 1 {
      assert fs == [Reaped];
      assert |ps[1..]| == 0;
      assert Survivors(ps, fs) == [];
      assert ReapedTops(ps[1..], fs[1..]) == 0;
      assert VisitedHits(ps[1..], fs[1..], bird, layout) == 0;
    } else {
      var tail := ps[2..];
      WalkMatchesFates(tail, bird, layout);
      assert fs == [Reaped, Skipped] + Fates(tail);
      assert fs[1..][1..] == Fates(tail);
      assert ps[1..][1..] == tail;
      assert fs[1..][0] == Skipped;
      assert Survivors(ps[1..], fs[1..]) == [ps[1]] + Survivors(tail, Fates(tail));
      assert ReapedTops(ps[1..], fs[1..]) == ReapedTops(tail, Fates(tail));
      assert VisitedHits(ps[1..], fs[1..], bird, layout) == VisitedHits(tail, Fates(tail), bird, layout);
    }
  }

  /** movePipes as written performs exactly the pass the fates describe. */
  lemma MovePipesMatchesReference(ps: seq<Pipe>, bird: Rect, layout: Layout)
    ensures MovePipes(ps, bird, layout) == Reference(ps, bird, layout)
  {
    assert [] + ps == ps;
    VisitSuffix(0, |ps|, [], ps, 0, 0, bird, layout);
    WalkMatchesFates(ps, bird, layout);
  }

  // ---------------------------------------------------------------------
  // Properties of the reference
  // ---------------------------------------------------------------------

  /** The survivors of a pass keep their order: the pipe at index `i` that
      was not reaped ends up at index `i` minus the number of pipes reaped
      before it, shifted by the velocity if it was visited and unmoved if it
      was skipped; nothing else is in the result. */
  lemma {:induction false} SurvivorsPlacement(ps: seq<Pipe>, fs: seq<Fate>)
    requires |fs| == |ps|
    ensures Reaps(fs) <= |ps| && |Survivors(ps, fs)| == |ps| - Reaps(fs)
    ensures forall i :: 0 <= i < |ps| && fs[i] != Reaped ==>
              && Reaps(fs[..i]) <= i
              && i - Reaps(fs[..i]) < |Survivors(ps, fs)|
              && Survivors(ps, fs)[i - Reaps(fs[..i])] == (if fs[i] == Moved then Shift(ps[i]) else ps[i])
    decreases |ps|
  {
    if |ps| > 0 {
      SurvivorsPlacement(ps[1..], fs[1..]);
      var out := Survivors(ps, fs);
      var rest := Survivors(ps[1..], fs[1..]);
      var d := if fs[0] == Reaped then 1 else 0;
      forall i | 0 <= i < |ps| && fs[i] != Reaped
        ensures && Reaps(fs[..i]) <= i
                && i - Reaps(fs[..i]) < |out|
                && out[i - Reaps(fs[..i])] == (if fs[i] == Moved then Shift(ps[i]) else ps[i])
      {
        if i > 0 {
          assert fs[..i][1..] == fs[1..][..i - 1];
          assert Reaps(fs[..i]) == d + Reaps(fs[1..][..i - 1]);
          assert fs[1..][i - 1] == fs[i] && ps[1..][i - 1] == ps[i];
        } else {
          assert Reaps(fs[..0]) == 0 by { assert fs[..0] == []; }
        }
      }
    }
  }

  /** The score gained by a pass is exactly the number of top pipes that
      are no longer in the array: a reaped bottom pipe adds nothing. */
  lemma {:induction false} ScoreAccounting(ps: seq<Pipe>, fs: seq<Fate>)
    requires |fs| == |ps|
    ensures ReapedTops(ps, fs) + CountTops(Survivors(ps, fs)) == CountTops(ps)
    decreases |ps|
  {
    if |ps| > 0 {
      ScoreAccounting(ps[1..], fs[1..]);
      var rest := Survivors(ps[1..], fs[1..]);
      assert ([Shift(ps[0])] + rest)[1..] == rest;
      assert ([ps[0]] + rest)[1..] == rest;
    }
  }

  /** A pass reports a collision exactly when some pipe it visited overlaps
      the bird after moving. */
  lemma {:induction false} HitsIffVisitedOverlap(ps: seq<Pipe>, fs: seq<Fate>, bird: Rect, layout: Layout)
    requires |fs| == |ps|
    ensures VisitedHits(ps, fs, bird, layout) > 0 <==>
            exists i :: 0 <= i < |ps| && fs[i] != Skipped && Overlaps(bird, PipeRect(Shift(ps[i]), layout))
    decreases |ps|
  {
    if |ps| > 0 {
      HitsIffVisitedOverlap(ps[1..], fs[1..], bird, layout);
      if VisitedHits(ps[1..], fs[1..], bird, layout) > 0 {
        var j :| 0 <= j < |ps| - 1 && fs[1..][j] != Skipped && Overlaps(bird, PipeRect(Shift(ps[1..][j]), layout));
        assert fs[j + 1] != Skipped && Overlaps(bird, PipeRect(Shift(ps[j + 1]), layout));
      }
      if exists i :: 0 <= i < |ps| && fs[i] != Skipped && Overlaps(bird, PipeRect(Shift(ps[i]), layout)) {
        var i :| 0 <= i < |ps| && fs[i] != Skipped && Overlaps(bird, PipeRect(Shift(ps[i]), layout));
        if i > 0 {
          assert fs[1..][i - 1] != Skipped && Overlaps(bird, PipeRect(Shift(ps[1..][i - 1]), layout));
        }
      }
    }
  }

  // ---------------------------------------------------------------------
  // movePipes, stated
  // ---------------------------------------------------------------------

  /** What one movePipes pass does, pipe by pipe: the removed pipes are the
      reaped ones, every visited pipe that stays has moved left by exactly
      the velocity, a skipped pipe stays where it was, order is kept, the
      score rises by the number of top pipes removed, and a game over is
      triggered exactly when a visited pipe overlaps the bird. */
  lemma MovePipesSpec(ps: seq<Pipe>, bird: Rect, layout: Layout)
    ensures var r := MovePipes(ps, bird, layout);
            var fs := Fates(ps);
            && |r.pipes| == |ps| - Reaps(fs)
            && (forall i :: 0 <= i < |ps| && fs[i] != Reaped ==>
                  && Reaps(fs[..i]) <= i
                  && i - Reaps(fs[..i]) < |r.pipes|
                  && r.pipes[i - Reaps(fs[..i])] == (if fs[i] == Moved then Shift(ps[i]) else ps[i]))
            && r.scored + CountTops(r.pipes) == CountTops(ps)
            && (r.hits > 0 <==> exists i :: 0 <= i < |ps| && fs[i] != Skipped && Overlaps(bird, PipeRect(Shift(ps[i]), layout)))
  {
    var fs := Fates(ps);
    var r := MovePipes(ps, bird, layout);
    MovePipesMatchesReference(ps, bird, layout);
    assert r.pipes == Survivors(ps, fs);
    assert r.scored == ReapedTops(ps, fs);
    assert r.hits == VisitedHits(ps, fs, bird, layout);
    SurvivorsPlacement(ps, fs);
    ScoreAccounting(ps, fs);
    HitsIffVisitedOverlap(ps, fs, bird, layout);
  }

  /** When no pipe has left the screen, a pass shifts every pipe by the
      velocity and scores nothing. */
  lemma UniformShiftWhenNothingExpired(ps: seq<Pipe>, bird: Rect, layout: Layout)
    requires forall i :: 0 <= i < |ps| ==> !Expired(ps[i])
    ensures var r := MovePipes(ps, bird, layout);
            && |r.pipes| == |ps|
            && (forall i :: 0 <= i < |ps| ==> r.pipes[i] == Shift(ps[i]))
            && r.scored == 0
  {
    var fs := Fates(ps);
    MovePipesMatchesReference(ps, bird, layout);
    FatesPointwise(ps);
    forall i | 0 <= i < |ps|
      ensures fs[i] == Moved
    {
      if i > 0 {
        assert fs[i - 1] != Reaped;
      }
    }
    AllMoved(ps, fs);
  }

  /** With every pipe moved, the survivors are the shifted pipes and
      nothing is scored. */
  lemma {:induction false} AllMoved(ps: seq<Pipe>, fs: seq<Fate>)
    requires |fs| == |ps| && forall i :: 0 <= i < |fs| ==> fs[i] == Moved
    ensures |Survivors(ps, fs)| == |ps|
    ensures forall i :: 0 <= i < |ps| ==> Survivors(ps, fs)[i] == Shift(ps[i])
    ensures ReapedTops(ps, fs) == 0
    decreases |ps|
  {
    if |ps| > 0 {
      AllMoved(ps[1..], fs[1..]);
      assert fs[0] == Moved;
    }
  }

  /** The splice-inside-forEach quirk: once the first pipe is reaped, the
      pipe after it is not visited in that pass, so it is neither moved nor
      removed even if it too is past the edge. */
  lemma SkipAfterReap(ps: seq<Pipe>, bird: Rect, layout: Layout)
    requires |ps| >= 2 && Expired(ps[0])
    ensures var r := MovePipes(ps, bird, layout);
            |r.pipes| >= 1 && r.pipes[0] == ps[1]
  {
    var fs := Fates(ps);
    MovePipesSpec(ps, bird, layout);
    FatesPointwise(ps);
    assert fs[0] == Reaped && fs[1] == Skipped;
    assert fs[..1] == [Reaped];
    assert Reaps(fs[..1]) == 1;
  }
}
